=== FILE: README.md ===
# LilyPad.js core, modelled in Dafny

LilyPad.js is a small browser game engine in one file, `dist/lilypad.js`.
This project models its core:

- the `Game` frame scheduler: `start`, the per-frame `loop` with its camera shake, and `shake`;
- the `Sprite` draw routine;
- the `Input` state: held keys, the mouse, and the touch points mapped into the canvas's logical coordinates;
- the name under which `load` stores an image;
- the `||` and default-parameter defaults of the constructors.

The project is organised by module:

- `Defaults` (defaults.dfy): the two default forms of JavaScript.
  - `OrDefault` is `v || d`: a missing value or 0 takes the default.
  - `ParamOr` is a default parameter: only a missing value takes it.
- `Canvas` (canvas.dfy): the 2D-context operations the engine issues, and a small reference semantics for them.
  - The transform is axis-aligned.
  - `save`/`restore` use a stack.
  - `globalAlpha` ignores values outside [0, 1], as the HTML canvas standard specifies.
  - Placed images are recorded with their destination corners and, per axis, whether they show mirrored. An image shows mirrored when the transform reverses that axis; a negative size only moves its box.
  - A nonzero `rotate` leaves the fragment that the semantics covers.
- `CameraShake` (camera_shake.dfy): the shake fields of a game as one value.
  - `Step` is the shake step of a running tick.
  - `Replace` is a `shake` call.
- `Frames` (frames.dfy): the block of events that a running tick emits, and a trace made of such blocks.
  - The events are the `update` callback, the context operations, the `draw` callback, and the next frame request.
  - The lemmas give counts, ordering, save/restore bracketing, and the context operations a frame amounts to.
- `GameLoop` (game.dfy): class `Game`.
  - The browser's frame requests are a counter `pendingTicks`.
  - `Fire` delivers one pending request.
  - What the ticks do is recorded in a ghost `trace`.
- `Sprites` (sprite.dfy): class `Sprite`. Its `Draw` returns the operations it issues. For rotation 0, the lemmas prove where the image lands on the context.
- `Controls` (input.dfy): class `Input` with its event handlers.
  - Coordinates are a `Num`, which is finite, or non-finite when the element has zero size.
- `Assets` (assets.dfy): the asset name of a file path.

Four behaviours of the code worth knowing:

- `shake(i, d)` with `d <= 0` keeps the current offset. So "the offset is zero whenever no shake time remains" does not always hold: see `CameraShake.ReplaceSettledIff` and `CameraShake.StaleOffsetSurvives`.
- `shake(i, d)` with `d > 0` keeps the current offset too, so a weaker shake called over a stronger one leaves an offset outside the new band of half the intensity until the next tick redraws it: see `CameraShake.ReplaceCalmIff` and `CameraShake.StepRecovers`.
- A running tick requests its successor without checking `isRunning` again.
- The asset name is the last path segment up to its first dot, not the text before the last dot: `a.b.png` is stored as `a`.

## Model

| member | source | states |
|---|---|---|
| Defaults.OrDefault | dist/lilypad.js:11-13 | JavaScript's `or` default: a nonzero value is kept; a missing value or 0 gives the default; a nonzero default never yields 0 |
| Defaults.ParamOr | dist/lilypad.js:108 | a default parameter: a supplied value, 0 included, is kept |
| Defaults.ZeroSeparatesTheForms | dist/lilypad.js:115-120 | an explicit 0 tells the two forms apart: the `or` default replaces it, a default parameter keeps it; on every nonzero value they agree |
| Canvas.RunAppend | dist/lilypad.js:127-135 | running two operation sequences one after the other is running their concatenation, and a failure stops both |
| Canvas.ScopedTranslate | dist/lilypad.js:100-103 | `save; translate(dx, dy); …; restore` gives back the context's transform, alpha and stack, and keeps only what was drawn inside |
| CameraShake.Step | dist/lilypad.js:87-95 | the shake step keeps the intensity |
| CameraShake.Replace | dist/lilypad.js:108-111 | `shake` replaces intensity and time and keeps the current offset |
| CameraShake.StepCountsDown | dist/lilypad.js:87-88 | a running shake loses exactly dt of its time; a finished one is left exactly as it is |
| CameraShake.ExpiryCentres | dist/lilypad.js:91-94 | the tick whose step reaches zero or below sets both offsets to 0 |
| CameraShake.JitterBounded | dist/lilypad.js:89-90 | one random sample times the intensity lies within half the intensity on either side |
| CameraShake.ShakingOffsetsBounded | dist/lilypad.js:87-95 | while time remains after the step, the offsets are the two fresh jitters, each within half the intensity |
| CameraShake.StepKeepsCalm | dist/lilypad.js:86-95 | one tick keeps "zero offset when expired, bounded offset while shaking" |
| CameraShake.StepsKeepCalm | dist/lilypad.js:86-95 | any run of ticks without a `shake` call keeps that invariant |
| CameraShake.LastShakeWins | dist/lilypad.js:108-111 | two `shake` calls in a row amount to the second one alone |
| CameraShake.ReplaceSettledIff | dist/lilypad.js:108-111 | after `shake(i, d)` the offset is zero-when-expired if and only if d > 0 or the offset was already zero |
| CameraShake.ReplaceCalmIff | dist/lilypad.js:108-111 | after `shake(i, d)` the state is calm if and only if the kept offset lies within the new band of half of i when d > 0, or is zero when d <= 0 |
| CameraShake.StepRecovers | dist/lilypad.js:87-95 | whatever offset `shake` left, the next tick of a running shake makes the state calm again |
| CameraShake.ExpiredStaysPut | dist/lilypad.js:87 | a state with no shake time left is unchanged by every run of ticks |
| CameraShake.StaleOffsetSurvives | dist/lilypad.js:87-111 | `shake(5, 0.5)`, a tick drawing 0.9 twice, then `shake(5, 0)` leave offset (2, 2) with no time left, and every later run of ticks leaves it there |
| Frames.Frame | dist/lilypad.js:97-105 | a running tick emits update(dt), clear of the whole canvas, save, translate by the offset, draw, restore, and a new frame request |
| Frames.TicksAppend | dist/lilypad.js:97-105 | appending one tick's block keeps a trace made of whole ticks |
| Frames.OneClearPerTick | dist/lilypad.js:97-98 | a trace of whole ticks holds exactly one clear, one update and one draw per tick |
| Frames.ClearBetweenUpdateAndDraw | dist/lilypad.js:97-102 | every clear directly follows an update and precedes the draw of its tick |
| Frames.TicksBracketed | dist/lilypad.js:100-103 | save and restore pair up across the trace, and every draw runs inside a save |
| Frames.RenderFrame | dist/lilypad.js:98-103 | with `draw` issuing some operations, a frame amounts to a clear followed by those operations between save+translate and restore |
| GameLoop.Game.constructor | dist/lilypad.js:10-40 | width, height and scale default to 160, 144 and 4 when left out or 0; the game is stopped at time 0 and nothing shakes; the input maps to the canvas's resolution, holds no keys and no touches, and its mouse is at (0, 0) and up |
| GameLoop.Game.Start | dist/lilypad.js:74-78 | `start` sets running, takes the given time as baseline, and adds one frame request even when the game is already running |
| GameLoop.Game.Loop | dist/lilypad.js:80-106 | a stopped game changes nothing; a running one measures dt = (t - lastTime)/1000 unclamped, moves the baseline, steps the shake, appends one tick block using the new offset, and requests a frame |
| GameLoop.Game.Fire | dist/lilypad.js:77-105 | delivering a request runs one tick: a stopped game keeps its baseline, shake state and trace and its chain ends; a running one moves the baseline, steps the shake, appends one tick block, and keeps the number of pending requests because the tick asks for its successor |
| GameLoop.Game.Shake | dist/lilypad.js:108-111 | `shake()` defaults to intensity 5 and duration 0.5, replaces both and changes nothing else |
| GameLoop.DoubleStart | dist/lilypad.js:74-78 | calling `start` twice leaves two frame chains that both go on |
| GameLoop.FrameShiftsSprite | dist/lilypad.js:100-103 | an unrotated sprite drawn in a frame lands displaced by exactly the shake offset, and the context is restored afterwards |
| Sprites.DrawOps | dist/lilypad.js:127-135 | `draw` issues seven operations that open with save, close with restore, and hold no other save or restore |
| Sprites.Placement | dist/lilypad.js:127-135 | with rotation 0, drawing places exactly one image on its box (x, y, width, height) under the current transform and alpha, showing mirrored on an axis when exactly one of the flip and the transform reverses it, and leaves transform, alpha and stack as they were |
| Sprites.UnflippedBox | dist/lilypad.js:130-133 | an unflipped, unrotated sprite on a fresh context covers the box with corners (x, y) and (x + width, y + height), unmirrored, at its own alpha, also for a negative size |
| Sprites.NegativeWidthIsNotAFlip | dist/lilypad.js:119-133 | a negative width kept by the constructor moves the box but does not mirror the image: a flipped sprite and an unflipped one of negated width cover the same box, and only the flipped one shows mirrored |
| Sprites.Sprite.constructor | dist/lilypad.js:115-125 | x and y default to 0 only when left out; a missing or zero size takes the image's size; no flip, no rotation, opaque |
| Sprites.ZeroSizedSprite | dist/lilypad.js:115-120 | `new Sprite(image, 0, 0, 0, 0)` keeps position (0, 0) and takes the image's own width and height |
| Sprites.Sprite.Draw | dist/lilypad.js:127-135 | the operations issued match the sprite's fields; when unrotated they place the image's box on a fresh context |
| Controls.ToLogical | dist/lilypad.js:149-150 | the logical coordinate scaled by size/resolution gives back the client offset; a zero-size element gives a non-finite coordinate |
| Controls.LogicalOfClient | dist/lilypad.js:149-150 | mapping a shown logical coordinate back gives that coordinate, whatever the CSS scale |
| Controls.ClientOfLogical | dist/lilypad.js:149-150 | every client coordinate is shown exactly where it maps to |
| Controls.CentreMapsToMiddle | dist/lilypad.js:171-172 | the centre of the element maps to the centre of the logical canvas |
| Controls.MapTouches | dist/lilypad.js:170-173 | the touch list keeps its length and order, and each point is mapped like the mouse |
| Controls.LastEventWins | dist/lilypad.js:144-145 | after any run of key events, a key's entry is what its last event made it, and an unmentioned key keeps its entry |
| Controls.Input.constructor | dist/lilypad.js:139-142 | no keys are held, the mouse is at (0, 0) and up, and there are no touches |
| Controls.Input.IsPressed | dist/lilypad.js:176-178 | a code never seen is not pressed; otherwise its last recorded state |
| Controls.Input.OnKeyDown | dist/lilypad.js:144 | keydown makes the code pressed and leaves every other key, the mouse and the touches unchanged |
| Controls.Input.OnKeyUp | dist/lilypad.js:145 | keyup makes the code released and leaves every other key, the mouse and the touches unchanged |
| Controls.Input.OnMouseMove | dist/lilypad.js:147-151 | the mouse position becomes the event point in logical coordinates; the button state is kept |
| Controls.Input.OnMouseDown | dist/lilypad.js:152 | the button goes down and the position is kept |
| Controls.Input.OnMouseUp | dist/lilypad.js:153 | the button goes up and the position is kept |
| Controls.Input.UpdateTouches | dist/lilypad.js:168-174 | the touches are replaced by the event's list, mapped; nothing of the old list survives |
| Controls.TwoTouchesThenOneLift | dist/lilypad.js:163-165 | after two fingers go down and one lifts, exactly the remaining finger is listed |
| Assets.AfterLast | dist/lilypad.js:64 | `split(c).pop()` is the suffix after the last c and holds no c |
| Assets.BeforeFirst | dist/lilypad.js:64 | `split(c)[0]` is the prefix before the first c and holds no c |
| Assets.AssetName | dist/lilypad.js:64 | the stored name is a prefix of the last path segment, with no `/` and no `.` |
| Assets.AfterLastOf | dist/lilypad.js:64 | the last segment of `p + c + t`, with t free of c, is t |
| Assets.AfterLastNone | dist/lilypad.js:64 | a string without the separator is its own last segment |
| Assets.BeforeFirstOf | dist/lilypad.js:64 | the first piece of `h + c + r`, with h free of c, is h |
| Assets.NameOfPath | dist/lilypad.js:64 | `dir/name.ext` is stored as `name` |
| Assets.NameOfFile | dist/lilypad.js:64 | `name.ext` with no directory is stored as `name` |

## Left out

- DOM and canvas construction (lines 15-27). The canvas's `width` and `height` attributes (lines 18-19) are kept: they are the input's `canvasWidth` and `canvasHeight`. The CSS size (lines 20-21) reaches the handlers only through the element's bounding rectangle, which they take as a parameter. The container lookup, the background and smoothing have no state the core reads back.
- `autoScale` and its resize listener (lines 45-56): they only set the CSS size, which the handlers see through the bounding rectangle. The mapping lemmas hold for any element size.
- `load` beyond the name (lines 58-72): Promise and Image loading and error rejection are browser I/O. The `assets`, `scenes`, `currentScene` and `fps` fields are never read by the core and are left out too.
- `performance.now` and `requestAnimationFrame`: times are parameters. Frame requests are the `pendingTicks` counter, delivered by `Game.Fire`.
- `Math.random`: its two samples per shaking tick are parameters in [0, 1).
- The user's `update` and `draw` callbacks: they are recorded as events, and their own effects are not modelled. `GameLoop.FrameShiftsSprite` takes a draw that issues one sprite's operations.
- `Sprites.Placement`: covers rotation 0 only. A nonzero `rotate` needs trigonometry, so `Canvas.Exec` yields no result for it.
- Pixels: `clearRect` and `drawImage` are recorded as operations and placed boxes, not as pixel contents.
- Numbers are exact reals. IEEE rounding and the integer conversion of the canvas `width`/`height` attributes are left out. The non-finite results of a zero-sized element are a `Num` case.
- `Defaults.OrDefault`: JavaScript also replaces `NaN`, `null`, `false` and `""` by the default. Only missing and numeric options are modelled.
- `Controls.Input.IsPressed`: `this.keys` is a plain object, so a code naming an inherited property such as `constructor` reads as pressed. The model's key map has no inherited entries.
- Event listener registration and `preventDefault` on touch events: browser plumbing. The handlers are methods called with the event's data and the element's bounding rectangle.
- The module export object (`LILYPAD`): a namespace only.
- Frames.TicksBracketed: covers ticks whose callbacks return normally. A throw from `update` or `draw` (lines 97 and 102) skips the restore and the next frame request (lines 103 and 105). That tick chain then ends, and the context keeps the extra save with the shake translation. Throw paths are not modelled.
- GameLoop.Game.Fire: the pending count is kept only when the tick's callbacks return normally. A throwing callback ends the chain before the re-arm at line 105.
- Sprites.DrawOps: lists the operations of a draw in which `drawImage` succeeds. When it throws (line 133, for a broken image), the restore at line 134 is skipped and the context keeps the sprite's save, alpha and transform.

=== FILE: assets.dfy ===
/**
 * The name under which a loaded image is stored (dist/lilypad.js:64):
 * `file.split('/').pop().split('.')[0]`, the last path segment up to its
 * first dot.
 */
module Assets {

  /** `s.split(c).pop()`: what follows the last c, or all of s when there is none. */
  function AfterLast(s: string, c: char): (r: string)
    ensures |r| <= |s| && r == s[|s| - |r|..]
    ensures c !in r
    ensures |r| < |s| ==> s[|s| - |r| - 1] == c
    decreases |s|
  {
    if s == [] then []
    else if s[|s| - 1] == c then []
    else
      var init := s[..|s| - 1];
      var r := AfterLast(init, c);
      assert s[|s| - |r| - 1..] == init[|init| - |r|..] + [s[|s| - 1]];
      r + [s[|s| - 1]]
  }

  /** `s.split(c)[0]`: what precedes the first c, or all of s when there is none. */
  function BeforeFirst(s: string, c: char): (r: string)
    ensures |r| <= |s| && r == s[..|r|]
    ensures c !in r
    ensures |r| < |s| ==> s[|r|] == c
    decreases |s|
  {
    if s == [] then []
    else if s[0] == c then []
    else [s[0]] + BeforeFirst(s[1..], c)
  }

  /** The asset name of a file path: no directory and no dot in it, read off the path's last segment. */
  function AssetName(path: string): (r: string)
    ensures '/' !in r && '.' !in r
    ensures |r| <= |AfterLast(path, '/')| && r == AfterLast(path, '/')[..|r|]
  {
    BeforeFirst(AfterLast(path, '/'), '.')
  }

  /** The segment after the last separator is everything after it. */
  lemma {:induction false} AfterLastOf(prefix: string, c: char, tail: string)
    requires c !in tail
    ensures AfterLast(prefix + [c] + tail, c) == tail
    decreases |tail|
  {
    var s := prefix + [c] + tail;
    if tail != [] {
      var init := tail[..|tail| - 1];
      assert s[..|s| - 1] == prefix + [c] + init;
      assert tail == init + [tail[|tail| - 1]];
      AfterLastOf(prefix, c, init);
    }
  }

  /** A string without the separator is its own last segment. */
  lemma {:induction false} AfterLastNone(s: string, c: char)
    requires c !in s
    ensures AfterLast(s, c) == s
    decreases |s|
  {
    if s != [] {
      AfterLastNone(s[..|s| - 1], c);
      assert s == s[..|s| - 1] + [s[|s| - 1]];
    }
  }

  /** The text before the first separator is everything before it. */
  lemma {:induction false} BeforeFirstOf(head: string, c: char, rest: string)
    requires c !in head
    ensures BeforeFirst(head + [c] + rest, c) == head
    decreases |head|
  {
    var s := head + [c] + rest;
    if head != [] {
      assert s[0] == head[0];
      assert s[1..] == head[1..] + [c] + rest;
      BeforeFirstOf(head[1..], c, rest);
      assert head == [head[0]] + head[1..];
    }
  }

  /**
   * `dir/name.ext` is stored as `name`, whatever the directory and
   * whatever follows the first dot of the file name.
   */
  lemma {:induction false} NameOfPath(dir: string, name: string, ext: string)
    requires '/' !in name && '.' !in name && '/' !in ext
    ensures AssetName(dir + "/" + name + "." + ext) == name
  {
    assert dir + "/" + name + "." + ext == dir + ['/'] + (name + "." + ext);
    assert '/' !in name + "." + ext;
    AfterLastOf(dir, '/', name + "." + ext);
    assert name + "." + ext == name + ['.'] + ext;
    BeforeFirstOf(name, '.', ext);
  }

  /** A bare file name `name.ext` is stored as `name`. */
  lemma {:induction false} NameOfFile(name: string, ext: string)
    requires '/' !in name && '.' !in name && '/' !in ext
    ensures AssetName(name + "." + ext) == name
  {
    assert '/' !in name + "." + ext;
    AfterLastNone(name + "." + ext, '/');
    assert name + "." + ext == name + ['.'] + ext;
    BeforeFirstOf(name, '.', ext);
  }
}

=== FILE: camera_shake.dfy ===
/**
 * The camera-shake sub-state of a game: remaining time, intensity and the
 * current draw offset, with the two ways it changes: the step at the start
 * of every running tick (dist/lilypad.js:87-95) and a `shake` call
 * (dist/lilypad.js:108-111).
 */
module CameraShake {

  datatype State = State(time: real, intensity: real, offsetX: real, offsetY: real)

  /** The state a new game starts in. */
  const Idle := State(0.0, 0.0, 0.0, 0.0)

  function Abs(x: real): real { if x < 0.0 then -x else x }

  /** A sample of Math.random(): in [0, 1). */
  predicate Sample(r: real) { 0.0 <= r < 1.0 }

  /** The offset one sample gives: (r - 0.5) * intensity. */
  function Jitter(r: real, intensity: real): real { (r - 0.5) * intensity }

  /**
   * The shake step of a tick that measured `dt`, with the two samples the
   * tick draws. An expired or never-started shake is left exactly as it is.
   */
  function Step(s: State, dt: real, rx: real, ry: real): (r: State)
    ensures r.intensity == s.intensity
  {
    if s.time > 0.0 then
      var time := s.time - dt;
      if time <= 0.0 then State(time, s.intensity, 0.0, 0.0)
      else State(time, s.intensity, Jitter(rx, s.intensity), Jitter(ry, s.intensity))
    else s
  }

  /** `shake(intensity, duration)`: both replaced, the offset kept. */
  function Replace(s: State, intensity: real, duration: real): (r: State)
    ensures r.offsetX == s.offsetX && r.offsetY == s.offsetY
  {
    s.(intensity := intensity, time := duration)
  }

  /** The offset is zero whenever no shake time remains. */
  predicate Settled(s: State)
  {
    s.time <= 0.0 ==> s.offsetX == 0.0 && s.offsetY == 0.0
  }

  /** Settled, and while shaking each offset is within half the intensity. */
  predicate Calm(s: State)
  {
    Settled(s) &&
    (s.time > 0.0 ==> Abs(s.offsetX) <= Abs(s.intensity) / 2.0 && Abs(s.offsetY) <= Abs(s.intensity) / 2.0)
  }

  /** A running shake loses exactly dt of its time; a finished one is untouched. */
  lemma StepCountsDown(s: State, dt: real, rx: real, ry: real)
    ensures s.time > 0.0 ==> Step(s, dt, rx, ry).time == s.time - dt
    ensures s.time <= 0.0 ==> Step(s, dt, rx, ry) == s
  {
  }

  /** The tick in which the time reaches zero or below centres the offset. */
  lemma ExpiryCentres(s: State, dt: real, rx: real, ry: real)
    requires s.time > 0.0 && s.time - dt <= 0.0
    ensures Step(s, dt, rx, ry).offsetX == 0.0 && Step(s, dt, rx, ry).offsetY == 0.0
  {
  }

  /** One sample scaled by the intensity lies in [-|i|/2, |i|/2], and in [-i/2, i/2) for positive i. */
  lemma {:induction false} JitterBounded(r: real, i: real)
    requires Sample(r)
    ensures Abs(Jitter(r, i)) <= Abs(i) / 2.0
    ensures i > 0.0 ==> -i / 2.0 <= Jitter(r, i) < i / 2.0
  {
    var d := r - 0.5;
    assert -0.5 <= d < 0.5;
    if i >= 0.0 {
      assert d * i <= 0.5 * i;
      assert -0.5 * i <= d * i;
      assert i > 0.0 ==> d * i < 0.5 * i;
    } else {
      assert d * i >= 0.5 * i;
      assert -0.5 * i >= d * i;
    }
  }

  /** While the shake lasts, each offset is a sample-driven jitter inside the intensity band. */
  lemma {:induction false} ShakingOffsetsBounded(s: State, dt: real, rx: real, ry: real)
    requires Sample(rx) && Sample(ry)
    requires Step(s, dt, rx, ry).time > 0.0
    ensures var r := Step(s, dt, rx, ry);
      && r.offsetX == Jitter(rx, s.intensity) && r.offsetY == Jitter(ry, s.intensity)
      && Abs(r.offsetX) <= Abs(s.intensity) / 2.0 && Abs(r.offsetY) <= Abs(s.intensity) / 2.0
  {
    if s.time > 0.0 {
      JitterBounded(rx, s.intensity);
      JitterBounded(ry, s.intensity);
    }
  }

  /** A tick keeps a calm state calm. */
  lemma {:induction false} StepKeepsCalm(s: State, dt: real, rx: real, ry: real)
    requires Calm(s) && Sample(rx) && Sample(ry)
    ensures Calm(Step(s, dt, rx, ry))
  {
    if s.time > 0.0 && s.time - dt > 0.0 {
      ShakingOffsetsBounded(s, dt, rx, ry);
    }
  }

  /** One tick's inputs: the measured dt and the two samples. */
  datatype Tick = Tick(dt: real, rx: real, ry: real)

  /** The shake state after a run of ticks with no `shake` call in between. */
  function Steps(s: State, ticks: seq<Tick>): State
    decreases |ticks|
  {
    if ticks == [] then s
    else Steps(Step(s, ticks[0].dt, ticks[0].rx, ticks[0].ry), ticks[1..])
  }

  /** Over any run of ticks with genuine samples, a calm state stays calm. */
  lemma {:induction false} StepsKeepCalm(s: State, ticks: seq<Tick>)
    requires Calm(s)
    requires forall k :: 0 <= k < |ticks| ==> Sample(ticks[k].rx) && Sample(ticks[k].ry)
    ensures Calm(Steps(s, ticks))
    decreases |ticks|
  {
    if ticks != [] {
      StepKeepsCalm(s, ticks[0].dt, ticks[0].rx, ticks[0].ry);
      StepsKeepCalm(Step(s, ticks[0].dt, ticks[0].rx, ticks[0].ry), ticks[1..]);
    }
  }

  /** The last `shake` call wins; nothing accumulates. */
  lemma LastShakeWins(s: State, i1: real, d1: real, i2: real, d2: real)
    ensures Replace(Replace(s, i1, d1), i2, d2) == Replace(s, i2, d2)
  {
  }

  /**
   * A `shake` call keeps the state settled exactly when it starts a shake
   * (positive duration) or the offset is already zero.
   */
  lemma ReplaceSettledIff(s: State, i: real, d: real)
    ensures Settled(Replace(s, i, d)) <==> d > 0.0 || (s.offsetX == 0.0 && s.offsetY == 0.0)
  {
  }

  /**
   * A `shake` call keeps the state calm exactly when the current offset
   * fits the new call: inside the new intensity band when it starts a
   * shake, zero when it does not. A weaker shake over a stronger one's
   * offset leaves that offset out of band until the next tick.
   */
  lemma ReplaceCalmIff(s: State, i: real, d: real)
    ensures Calm(Replace(s, i, d)) <==>
      if d > 0.0 then Abs(s.offsetX) <= Abs(i) / 2.0 && Abs(s.offsetY) <= Abs(i) / 2.0
      else s.offsetX == 0.0 && s.offsetY == 0.0
  {
  }

  /** Whatever `shake` left, the next tick of a running shake makes the state calm again. */
  lemma {:induction false} StepRecovers(s: State, dt: real, rx: real, ry: real)
    requires s.time > 0.0 && Sample(rx) && Sample(ry)
    ensures Calm(Step(s, dt, rx, ry))
  {
    if s.time - dt > 0.0 {
      ShakingOffsetsBounded(s, dt, rx, ry);
    }
  }

  /** A state with no shake time left is a fixed point of every run of ticks. */
  lemma {:induction false} ExpiredStaysPut(s: State, ticks: seq<Tick>)
    requires s.time <= 0.0
    ensures Steps(s, ticks) == s
    decreases |ticks|
  {
    if ticks != [] {
      ExpiredStaysPut(s, ticks[1..]);
    }
  }

  /**
   * `shake(5, 0.5)`, one 100 ms tick drawing 0.9 twice, then `shake(5, 0)`:
   * the offset (2, 2) of the interrupted shake survives, and every later
   * run of ticks leaves it in place, so the scene stays displaced.
   */
  lemma StaleOffsetSurvives(ticks: seq<Tick>)
    ensures var s1 := Step(Replace(Idle, 5.0, 0.5), 0.1, 0.9, 0.9);
      var s2 := Replace(s1, 5.0, 0.0);
      && s1.offsetX == 2.0 && s1.offsetY == 2.0
      && !Settled(s2)
      && Steps(s2, ticks) == s2
  {
    var s1 := Step(Replace(Idle, 5.0, 0.5), 0.1, 0.9, 0.9);
    ExpiredStaysPut(Replace(s1, 5.0, 0.0), ticks);
  }
}

=== FILE: canvas.dfy ===
/**
 * The part of the HTML canvas 2D context the runtime drives: the operations
 * it issues, and a small semantics of their effect on the context's
 * transform, its global alpha, its save/restore stack and the images it
 * places. Only axis-aligned transforms are modelled: a rotation by a
 * non-zero angle leaves the semantics (`Exec` answers None).
 */
module Canvas {
  import opened Defaults

  /** An image handle with its natural size. */
  datatype Image = Image(name: string, width: real, height: real)

  datatype Op =
    | Save
    | Restore
    | SetAlpha(alpha: real)
    | Translate(dx: real, dy: real)
    | Rotate(angle: real)
    | Scale(sx: real, sy: real)
    | DrawImage(image: Image, dx: real, dy: real, dw: real, dh: real)
    | ClearRect(x: real, y: real, w: real, h: real)

  /** The axis-aligned affine map (px, py) |-> (sx * px + tx, sy * py + ty). */
  datatype Transform = Transform(sx: real, sy: real, tx: real, ty: real)

  const Identity := Transform(1.0, 1.0, 0.0, 0.0)

  function MapX(t: Transform, x: real): real { t.sx * x + t.tx }

  function MapY(t: Transform, y: real): real { t.sy * y + t.ty }

  /** `translate(dx, dy)` composed after t. */
  function Shift(t: Transform, dx: real, dy: real): Transform
  {
    Transform(t.sx, t.sy, MapX(t, dx), MapY(t, dy))
  }

  /** `scale(kx, ky)` composed after t. */
  function Stretch(t: Transform, kx: real, ky: real): Transform
  {
    Transform(t.sx * kx, t.sy * ky, t.tx, t.ty)
  }

  /**
   * An image put on the surface: the destination corners (dx, dy) and
   * (dx + dw, dy + dh) of `drawImage` mapped through the transform, whether
   * the image shows mirrored on each axis, and the alpha it was drawn with.
   * The image covers the box between the two corners. It shows mirrored
   * exactly on an axis the transform reverses; a negative size only moves
   * the box and does not mirror, so the order of the corners carries no
   * orientation.
   */
  datatype Placed = Placed(image: Image, x0: real, y0: real, x1: real, y1: real,
                           mirrorX: bool, mirrorY: bool, alpha: real)

  datatype Saved = Saved(transform: Transform, alpha: real)

  datatype Context = Context(transform: Transform, alpha: real, stack: seq<Saved>, placed: seq<Placed>)

  /** A context as the canvas hands it out: identity transform, opaque, nothing saved or drawn. */
  const Fresh := Context(Identity, 1.0, [], [])

  /** One operation; None when the operation leaves the axis-aligned fragment. */
  function Exec(c: Context, op: Op): Option<Context>
  {
    var t := c.transform;
    match op
    case Save => Some(c.(stack := c.stack + [Saved(t, c.alpha)]))
    case Restore =>
      // restore() with nothing saved does nothing
      if c.stack == [] then Some(c)
      else
        var top := c.stack[|c.stack| - 1];
        Some(c.(transform := top.transform, alpha := top.alpha, stack := c.stack[..|c.stack| - 1]))
    case SetAlpha(a) =>
      // the globalAlpha setter ignores values outside [0, 1]
      if 0.0 <= a <= 1.0 then Some(c.(alpha := a)) else Some(c)
    case Translate(dx, dy) =>
      Some(c.(transform := Shift(t, dx, dy)))
    case Rotate(angle) =>
      if angle == 0.0 then Some(c) else None
    case Scale(kx, ky) =>
      Some(c.(transform := Stretch(t, kx, ky)))
    case DrawImage(img, dx, dy, dw, dh) =>
      Some(c.(placed := c.placed + [Placed(img, MapX(t, dx), MapY(t, dy), MapX(t, dx + dw), MapY(t, dy + dh),
                                          t.sx < 0.0, t.sy < 0.0, c.alpha)]))
    case ClearRect(_, _, _, _) =>
      // pixels are not modelled; clearing changes no transform state
      Some(c)
  }

  /** A sequence of operations, stopping at the first one outside the fragment. */
  function Run(c: Context, ops: seq<Op>): Option<Context>
    decreases |ops|
  {
    if ops == [] then Some(c)
    else
      match Exec(c, ops[0])
      case None => None
      case Some(c') => Run(c', ops[1..])
  }

  /** Running two sequences one after the other is running their concatenation. */
  lemma {:induction false} RunAppend(c: Context, a: seq<Op>, b: seq<Op>)
    ensures Run(c, a + b) == match Run(c, a) case None => None case Some(c') => Run(c', b)
    decreases |a|
  {
    if a == [] {
      assert a + b == b;
    } else {
      assert (a + b)[0] == a[0];
      assert (a + b)[1..] == a[1..] + b;
      match Exec(c, a[0])
      case None =>
      case Some(c') => RunAppend(c', a[1..], b);
    }
  }

  /** Running an operation in front of others: its result is where the others start. */
  lemma RunCons(c: Context, op: Op, rest: seq<Op>, c': Context)
    requires Exec(c, op) == Some(c')
    ensures Run(c, [op] + rest) == Run(c', rest)
  {
    assert ([op] + rest)[0] == op;
    assert ([op] + rest)[1..] == rest;
  }

  /** A single operation run as a sequence. */
  lemma RunOne(c: Context, op: Op)
    ensures Run(c, [op]) == Exec(c, op)
  {
    assert [op][1..] == [];
  }

  /**
   * A translation scoped by save/restore: the operations in between run
   * under the shifted transform, and afterwards the transform, alpha and
   * stack are back as they were, whatever the inner operations did to the
   * transform and alpha, provided they leave the stack as they found it.
   */
  lemma ScopedTranslate(c: Context, dx: real, dy: real, inner: seq<Op>, after: Context)
    requires Run(Shifted(c, dx, dy), inner) == Some(after)
    requires after.stack == c.stack + [Saved(c.transform, c.alpha)]
    ensures Run(c, [Save, Translate(dx, dy)] + inner + [Restore]) == Some(c.(placed := after.placed))
  {
    var t := c.transform;
    var c1 := Context(t, c.alpha, c.stack + [Saved(t, c.alpha)], c.placed);
    var prefix := [Save, Translate(dx, dy)];
    assert prefix == [Save] + [Translate(dx, dy)];
    RunOne(c, Save);
    assert Exec(c, Save) == Some(c1);
    RunOne(c1, Translate(dx, dy));
    assert Exec(c1, Translate(dx, dy)) == Some(Shifted(c, dx, dy));
    RunAppend(c, [Save], [Translate(dx, dy)]);
    assert Run(c, prefix) == Some(Shifted(c, dx, dy));
    RunAppend(c, prefix, inner);
    RunAppend(c, prefix + inner, [Restore]);
    RunOne(after, Restore);
  }

  /** The context inside `save(); translate(dx, dy)`. */
  function Shifted(c: Context, dx: real, dy: real): Context
  {
    Context(Shift(c.transform, dx, dy), c.alpha, c.stack + [Saved(c.transform, c.alpha)], c.placed)
  }
}

=== FILE: defaults.dfy ===
/** The two ways the runtime fills in a value the caller left out. */
module Defaults {

  /** A value the caller may leave out (`undefined` in JavaScript). */
  datatype Option<+T> = None | Some(value: T)

  /**
   * `v || d` on a number: a missing value and the falsy number 0 both give
   * way to the default; every other number, negative ones included, is kept.
   */
  function OrDefault(v: Option<real>, d: real): (r: real)
    ensures v.Some? && v.value != 0.0 ==> r == v.value
    ensures v == None || v == Some(0.0) ==> r == d
    ensures d != 0.0 ==> r != 0.0
  {
    if v.Some? && v.value != 0.0 then v.value else d
  }

  /** A default parameter (`x = d`): only a missing value is replaced; 0 is kept. */
  function ParamOr(v: Option<real>, d: real): (r: real)
    ensures v.Some? ==> r == v.value
  {
    if v.Some? then v.value else d
  }

  /**
   * An explicit 0 is where the two forms part: `||` replaces it, a default
   * parameter keeps it; on every other number they agree.
   */
  lemma ZeroSeparatesTheForms(d: real)
    requires d != 0.0
    ensures OrDefault(Some(0.0), d) == d
    ensures ParamOr(Some(0.0), d) == 0.0
    ensures forall v: real :: v != 0.0 ==> OrDefault(Some(v), d) == ParamOr(Some(v), d)
  {
  }
}

=== FILE: frames.dfy ===
/**
 * What a running game does, as a trace of events: each running tick
 * (dist/lilypad.js:97-105) contributes one block of seven events, and the
 * trace of a game is a sequence of such blocks.
 */
module Frames {
  import Canvas

  datatype Event =
    | Update(dt: real)       // the user's update callback, called with dt
    | Ctx(op: Canvas.Op)     // an operation on the drawing context
    | Draw                   // the user's draw callback
    | Arm                    // the next tick is requested

  /** The block of events one running tick emits. */
  function Frame(dt: real, width: real, height: real, offsetX: real, offsetY: real): (r: seq<Event>)
    ensures IsFrame(r)
  {
    [ Update(dt),
      Ctx(Canvas.ClearRect(0.0, 0.0, width, height)),
      Ctx(Canvas.Save),
      Ctx(Canvas.Translate(offsetX, offsetY)),
      Draw,
      Ctx(Canvas.Restore),
      Arm ]
  }

  /** The shape of a tick's block, whatever its numbers. */
  predicate IsFrame(b: seq<Event>)
  {
    && |b| == 7
    && b[0].Update?
    && b[1].Ctx? && b[1].op.ClearRect? && b[1].op.x == 0.0 && b[1].op.y == 0.0
    && b[2] == Ctx(Canvas.Save)
    && b[3].Ctx? && b[3].op.Translate?
    && b[4] == Draw
    && b[5] == Ctx(Canvas.Restore)
    && b[6] == Arm
  }

  /** A trace made of whole ticks. */
  predicate Ticks(tr: seq<Event>)
    decreases |tr|
  {
    tr == [] || (|tr| >= 7 && IsFrame(tr[..7]) && Ticks(tr[7..]))
  }

  /** One more tick keeps a trace made of whole ticks. */
  lemma {:induction false} TicksAppend(tr: seq<Event>, b: seq<Event>)
    requires Ticks(tr) && IsFrame(b)
    ensures Ticks(tr + b)
    decreases |tr|
  {
    if tr == [] {
      assert (tr + b)[..7] == b;
      assert (tr + b)[7..] == [];
    } else {
      assert (tr + b)[..7] == tr[..7];
      assert (tr + b)[7..] == tr[7..] + b;
      TicksAppend(tr[7..], b);
    }
  }

  datatype Kind = UpdateKind | ClearKind | DrawKind | OtherKind

  function KindOf(e: Event): Kind
  {
    match e
    case Update(_) => UpdateKind
    case Ctx(op) => if op.ClearRect? then ClearKind else OtherKind
    case Draw => DrawKind
    case Arm => OtherKind
  }

  /** How many events of kind k the trace holds. */
  function Count(tr: seq<Event>, k: Kind): nat
    decreases |tr|
  {
    if tr == [] then 0 else (if KindOf(tr[0]) == k then 1 else 0) + Count(tr[1..], k)
  }

  lemma {:induction false} CountAppend(a: seq<Event>, b: seq<Event>, k: Kind)
    ensures Count(a + b, k) == Count(a, k) + Count(b, k)
    decreases |a|
  {
    if a == [] {
      assert a + b == b;
    } else {
      assert (a + b)[0] == a[0];
      assert (a + b)[1..] == a[1..] + b;
      CountAppend(a[1..], b, k);
    }
  }

  lemma CountStep(s: seq<Event>, i: nat, k: Kind)
    requires i < |s|
    ensures Count(s[i..], k) == (if KindOf(s[i]) == k then 1 else 0) + Count(s[i + 1..], k)
  {
    assert s[i..][1..] == s[i + 1..];
  }

  lemma FrameCount(b: seq<Event>, k: Kind)
    requires IsFrame(b)
    ensures Count(b, k) == if k == OtherKind then 4 else 1
  {
    assert b[0..] == b && b[7..] == [];
    CountStep(b, 6, k);
    CountStep(b, 5, k);
    CountStep(b, 4, k);
    CountStep(b, 3, k);
    CountStep(b, 2, k);
    CountStep(b, 1, k);
    CountStep(b, 0, k);
  }

  /** In a trace of whole ticks there is one clear per tick, one per update and one per draw. */
  lemma {:induction false} OneClearPerTick(tr: seq<Event>)
    requires Ticks(tr)
    ensures |tr| % 7 == 0
    ensures Count(tr, ClearKind) == Count(tr, UpdateKind) == Count(tr, DrawKind) == |tr| / 7
    decreases |tr|
  {
    if tr != [] {
      assert tr == tr[..7] + tr[7..];
      FrameCount(tr[..7], UpdateKind);
      FrameCount(tr[..7], ClearKind);
      FrameCount(tr[..7], DrawKind);
      OneClearPerTick(tr[7..]);
      CountAppend(tr[..7], tr[7..], UpdateKind);
      CountAppend(tr[..7], tr[7..], ClearKind);
      CountAppend(tr[..7], tr[7..], DrawKind);
    }
  }

  /**
   * Every clear comes straight after an update and before a draw of the
   * same tick; the draw never sees an uncleared surface.
   */
  lemma {:induction false} ClearBetweenUpdateAndDraw(tr: seq<Event>)
    requires Ticks(tr)
    ensures forall i :: 0 <= i < |tr| && KindOf(tr[i]) == ClearKind ==>
      0 < i && tr[i - 1].Update? && i + 3 < |tr| && tr[i + 3] == Draw
    decreases |tr|
  {
    if tr != [] {
      var rest := tr[7..];
      ClearBetweenUpdateAndDraw(rest);
      forall i | 0 <= i < |tr| && KindOf(tr[i]) == ClearKind
        ensures 0 < i && tr[i - 1].Update? && i + 3 < |tr| && tr[i + 3] == Draw
      {
        if i < 7 {
          assert tr[..7][i] == tr[i];
        } else {
          assert tr[i] == rest[i - 7];
          assert tr[i - 1] == rest[i - 8];
          assert tr[i + 3] == rest[i - 4];
        }
      }
    }
  }

  /**
   * Save and restore of the context pair up: depth counts the open saves,
   * a restore needs one, the user's draw runs inside one, and the trace
   * closes every save it opens.
   */
  predicate Bracketed(tr: seq<Event>, depth: nat)
    decreases |tr|
  {
    if tr == [] then depth == 0
    else match tr[0]
      case Ctx(op) =>
        if op.Save? then Bracketed(tr[1..], depth + 1)
        else if op.Restore? then depth > 0 && Bracketed(tr[1..], depth - 1)
        else Bracketed(tr[1..], depth)
      case Draw => depth > 0 && Bracketed(tr[1..], depth)
      case _ => Bracketed(tr[1..], depth)
  }

  lemma FrameBracketed(b: seq<Event>, rest: seq<Event>)
    requires IsFrame(b) && Bracketed(rest, 0)
    ensures Bracketed(b + rest, 0)
  {
    var s := b + rest;
    assert s[6..] == [Arm] + rest;
    assert Bracketed(s[6..], 0);
    assert s[5..] == [s[5]] + s[6..];
    assert Bracketed(s[5..], 1);
    assert s[4..] == [Draw] + s[5..];
    assert Bracketed(s[4..], 1);
    assert s[3..] == [s[3]] + s[4..];
    assert Bracketed(s[3..], 1);
    assert s[2..] == [s[2]] + s[3..];
    assert Bracketed(s[2..], 0);
    assert s[1..] == [s[1]] + s[2..];
    assert Bracketed(s[1..], 0);
  }

  /** A trace of whole ticks is bracketed: every draw runs between a save and its restore. */
  lemma {:induction false} TicksBracketed(tr: seq<Event>)
    requires Ticks(tr)
    ensures Bracketed(tr, 0)
    decreases |tr|
  {
    if tr != [] {
      TicksBracketed(tr[7..]);
      assert tr == tr[..7] + tr[7..];
      FrameBracketed(tr[..7], tr[7..]);
    }
  }

  /**
   * The context operations a trace amounts to once each draw event is
   * replaced by the operations the user's draw callback issues.
   */
  function Render(tr: seq<Event>, drawOps: seq<Canvas.Op>): seq<Canvas.Op>
    decreases |tr|
  {
    if tr == [] then [] else Piece(tr[0], drawOps) + Render(tr[1..], drawOps)
  }

  /** The context operations of one event. */
  function Piece(e: Event, drawOps: seq<Canvas.Op>): seq<Canvas.Op>
  {
    match e
    case Ctx(op) => [op]
    case Draw => drawOps
    case _ => []
  }

  lemma RenderStep(tr: seq<Event>, i: nat, drawOps: seq<Canvas.Op>)
    requires i < |tr|
    ensures Render(tr[i..], drawOps) == Piece(tr[i], drawOps) + Render(tr[i + 1..], drawOps)
  {
    assert tr[i..][1..] == tr[i + 1..];
  }

  /** The context operations of one frame whose draw callback issues `drawOps`. */
  lemma RenderFrame(dt: real, w: real, h: real, ox: real, oy: real, drawOps: seq<Canvas.Op>)
    ensures Render(Frame(dt, w, h, ox, oy), drawOps)
         == [Canvas.ClearRect(0.0, 0.0, w, h)] + ([Canvas.Save, Canvas.Translate(ox, oy)] + drawOps + [Canvas.Restore])
  {
    var f := Frame(dt, w, h, ox, oy);
    var tail := [Canvas.Translate(ox, oy)] + (drawOps + [Canvas.Restore]);
    assert f[7..] == [];
    RenderStep(f, 6, drawOps);
    assert Render(f[6..], drawOps) == [];
    RenderStep(f, 5, drawOps);
    assert Render(f[5..], drawOps) == [Canvas.Restore];
    RenderStep(f, 4, drawOps);
    assert Render(f[4..], drawOps) == drawOps + [Canvas.Restore];
    RenderStep(f, 3, drawOps);
    assert Render(f[3..], drawOps) == tail;
    RenderStep(f, 2, drawOps);
    assert Render(f[2..], drawOps) == [Canvas.Save] + tail;
    RenderStep(f, 1, drawOps);
    RenderStep(f, 0, drawOps);
    assert f[0..] == f;
    assert [Canvas.Save] + tail == [Canvas.Save, Canvas.Translate(ox, oy)] + drawOps + [Canvas.Restore];
  }
}

=== FILE: game.dfy ===
/**
 * The game object (dist/lilypad.js:9-112): the frame scheduler with its
 * running flag, time baseline and camera shake. The browser's frame
 * requests are a counter of pending ticks; what a tick does is appended
 * to a ghost trace of events.
 */
module GameLoop {
  import opened Defaults
  import Canvas
  import CameraShake
  import Frames
  import Controls
  import Sprites

  /** The options the constructor reads; a left-out option is None. */
  datatype Config = Config(width: Option<real>, height: Option<real>, scale: Option<real>)

  class Game {
    /** Logical resolution and CSS scale, fixed at construction. */
    const width: real
    const height: real
    const scale: real
    const input: Controls.Input

    var isRunning: bool
    var lastTime: real
    var shakeTime: real
    var shakeIntensity: real
    var offsetX: real
    var offsetY: real

    /** Frame requests made and not yet delivered. */
    var pendingTicks: nat
    /** Everything the running ticks have done so far. */
    ghost var trace: seq<Frames.Event>

    ghost predicate Valid()
      reads this
    {
      Frames.Ticks(trace)
    }

    /** The camera-shake fields as one value. */
    function ShakeState(): CameraShake.State
      reads this
    {
      CameraShake.State(shakeTime, shakeIntensity, offsetX, offsetY)
    }

    /**
     * `new Game(config)`: a left-out or zero width, height or scale takes the
     * default 160, 144 or 4; the game is stopped, nothing is shaking, and its
     * input maps coordinates to the canvas's resolution.
     */
    constructor(config: Config)
      ensures Valid() && trace == []
      ensures width == OrDefault(config.width, 160.0)
      ensures height == OrDefault(config.height, 144.0)
      ensures scale == OrDefault(config.scale, 4.0)
      ensures !isRunning && lastTime == 0.0 && pendingTicks == 0
      ensures ShakeState() == CameraShake.Idle
      ensures fresh(input) && input.canvasWidth == width && input.canvasHeight == height
      ensures input.keys == map[] && input.touches == []
      ensures input.mouse == Controls.Mouse(Controls.Finite(0.0), Controls.Finite(0.0), false)
    {
      width := OrDefault(config.width, 160.0);
      height := OrDefault(config.height, 144.0);
      scale := OrDefault(config.scale, 4.0);
      var w := OrDefault(config.width, 160.0);
      var h := OrDefault(config.height, 144.0);
      input := new Controls.Input(w, h);
      isRunning := false;
      lastTime := 0.0;
      shakeTime := 0.0;
      shakeIntensity := 0.0;
      offsetX := 0.0;
      offsetY := 0.0;
      pendingTicks := 0;
      trace := [];
    }

    /**
     * `start()` at time `now`: running, with `now` as the baseline, and one
     * more frame requested, whether or not the game was running already.
     */
    method Start(now: real)
      requires Valid()
      modifies this
      ensures Valid()
      ensures isRunning && lastTime == now
      ensures pendingTicks == old(pendingTicks) + 1
      ensures ShakeState() == old(ShakeState()) && trace == old(trace)
    {
      isRunning := true;
      lastTime := now;
      pendingTicks := pendingTicks + 1;
    }

    /**
     * `loop(currentTime)`, with rx and ry the two Math.random() samples the
     * shake step draws. A stopped game does nothing at all. A running one
     * measures dt in seconds, moves its baseline, steps the shake, and then
     * emits one frame: update(dt), clear, save, translate by the offset the
     * shake step left, draw, restore, and a new frame request.
     */
    method Loop(currentTime: real, rx: real, ry: real)
      requires Valid()
      requires CameraShake.Sample(rx) && CameraShake.Sample(ry)
      modifies this
      ensures Valid()
      ensures !old(isRunning) ==> unchanged(this)
      ensures old(isRunning) ==>
        var dt := (currentTime - old(lastTime)) / 1000.0;
        && isRunning && lastTime == currentTime
        && ShakeState() == CameraShake.Step(old(ShakeState()), dt, rx, ry)
        && trace == old(trace) + Frames.Frame(dt, width, height, offsetX, offsetY)
        && pendingTicks == old(pendingTicks) + 1
    {
      if !isRunning {
        return;
      }
      var dt := (currentTime - lastTime) / 1000.0;
      lastTime := currentTime;

      if shakeTime > 0.0 {
        shakeTime := shakeTime - dt;
        offsetX := CameraShake.Jitter(rx, shakeIntensity);
        offsetY := CameraShake.Jitter(ry, shakeIntensity);
        if shakeTime <= 0.0 {
          offsetX := 0.0;
          offsetY := 0.0;
        }
      }

      // update(dt); clearRect; save; translate(offsetX, offsetY); draw; restore; requestAnimationFrame
      ghost var frame := Frames.Frame(dt, width, height, offsetX, offsetY);
      trace := trace + frame;
      pendingTicks := pendingTicks + 1;
      Frames.TicksAppend(old(trace), frame);
    }

    /**
     * The browser delivering one requested frame at `currentTime`: the
     * request is used up and the tick runs, doing what `Loop` does. While running, the tick asks
     * for its successor, so the number of pending requests stays the same:
     * a second `start` leaves two tick chains that both go on.
     */
    method Fire(currentTime: real, rx: real, ry: real)
      requires Valid() && pendingTicks > 0
      requires CameraShake.Sample(rx) && CameraShake.Sample(ry)
      modifies this
      ensures Valid()
      ensures isRunning == old(isRunning)
      ensures pendingTicks == if old(isRunning) then old(pendingTicks) else old(pendingTicks) - 1
      ensures !old(isRunning) ==>
        lastTime == old(lastTime) && ShakeState() == old(ShakeState()) && trace == old(trace)
      ensures old(isRunning) ==>
        var dt := (currentTime - old(lastTime)) / 1000.0;
        && lastTime == currentTime
        && ShakeState() == CameraShake.Step(old(ShakeState()), dt, rx, ry)
        && trace == old(trace) + Frames.Frame(dt, width, height, offsetX, offsetY)
    {
      pendingTicks := pendingTicks - 1;
      Loop(currentTime, rx, ry);
    }

    /**
     * `shake(intensity, duration)`: a left-out intensity is 5 and a left-out
     * duration 0.5; both replace the current ones, and nothing else changes.
     */
    method Shake(intensity: Option<real>, duration: Option<real>)
      modifies this
      ensures ShakeState() == CameraShake.Replace(old(ShakeState()), ParamOr(intensity, 5.0), ParamOr(duration, 0.5))
      ensures isRunning == old(isRunning) && lastTime == old(lastTime)
      ensures pendingTicks == old(pendingTicks) && trace == old(trace)
    {
      shakeIntensity := ParamOr(intensity, 5.0);
      shakeTime := ParamOr(duration, 0.5);
    }
  }

  /**
   * Starting twice and letting one frame through leaves two frame requests
   * pending: two tick chains, each of which updates and draws on every frame.
   */
  method DoubleStart(now: real, frameTime: real) returns (pending: nat)
    ensures pending == 2
  {
    var g := new Game(Config(None, None, None));
    g.Start(now);
    g.Start(now);
    g.Fire(frameTime, 0.0, 0.0);
    pending := g.pendingTicks;
  }

  /**
   * What a frame puts on a fresh context when the user's draw callback
   * draws one unrotated sprite: the sprite's box, moved by the frame's
   * shake offset; afterwards the context's transform, alpha and stack are
   * as fresh as before.
   */
  lemma {:induction false} FrameShiftsSprite(dt: real, w: real, h: real, ox: real, oy: real,
                                             image: Canvas.Image, x: real, y: real, sw: real, sh: real,
                                             flipX: bool, flipY: bool, alpha: real)
    ensures
      var placed := Sprites.PlacedAt(Canvas.Fresh, image, x + ox, y + oy, sw, sh, flipX, flipY, alpha);
      Canvas.Run(Canvas.Fresh, Frames.Render(Frames.Frame(dt, w, h, ox, oy),
                                             Sprites.DrawOps(image, x, y, sw, sh, 0.0, flipX, flipY, alpha)))
        == Some(Canvas.Fresh.(placed := [placed]))
  {
    var ops := Sprites.DrawOps(image, x, y, sw, sh, 0.0, flipX, flipY, alpha);
    Frames.RenderFrame(dt, w, h, ox, oy, ops);
    var c := Canvas.Fresh;
    var shifted := Canvas.Shifted(c, ox, oy);
    Sprites.Placement(shifted, image, x, y, sw, sh, flipX, flipY, alpha);
    var p := Sprites.PlacedAt(shifted, image, x, y, sw, sh, flipX, flipY, alpha);
    assert shifted.placed + [p] == [p];
    Canvas.ScopedTranslate(c, ox, oy, ops, shifted.(placed := [p]));
    Canvas.RunAppend(c, [Canvas.ClearRect(0.0, 0.0, w, h)],
                     [Canvas.Save, Canvas.Translate(ox, oy)] + ops + [Canvas.Restore]);
    Canvas.RunOne(c, Canvas.ClearRect(0.0, 0.0, w, h));
    assert p == Sprites.PlacedAt(Canvas.Fresh, image, x + ox, y + oy, sw, sh, flipX, flipY, alpha);
  }
}

=== FILE: input.dfy ===
/**
 * Input state (dist/lilypad.js:138-179): which keys are held, where the
 * mouse is and whether its button is down, and the current touch points,
 * all in the canvas's logical coordinates. The browser's event delivery
 * calls the handler methods; the element's bounding rectangle is passed in.
 */
module Controls {
  import opened Defaults

  /** A JavaScript number as the coordinate mapping can produce it: finite, or Infinity/NaN. */
  datatype Num = Finite(value: real) | NonFinite

  /** The canvas element's bounding rectangle in client pixels. */
  datatype Rect = Rect(left: real, top: real, width: real, height: real)

  /** A touch or pointer position in client pixels. */
  datatype ClientPoint = ClientPoint(clientX: real, clientY: real)

  /** A position in logical canvas coordinates. */
  datatype Point = Point(x: Num, y: Num)

  datatype Mouse = Mouse(x: Num, y: Num, down: bool)

  /**
   * `(client - start) / (size / resolution)` in IEEE arithmetic: a zero
   * rendered size makes the quotient non-finite; a zero resolution with a
   * non-zero size divides by an infinite ratio and gives 0.
   */
  function ToLogical(client: real, start: real, size: real, resolution: real): (r: Num)
    ensures size != 0.0 && resolution != 0.0 ==> r.Finite? && r.value * (size / resolution) == client - start
    ensures size == 0.0 ==> r == NonFinite
  {
    if size == 0.0 then NonFinite
    else if resolution == 0.0 then Finite(0.0)
    else Finite((client - start) / (size / resolution))
  }

  /** Where a logical coordinate p is shown on screen: the inverse of ToLogical. */
  function ToClient(p: real, start: real, size: real, resolution: real): real
    requires resolution != 0.0
  {
    start + p * (size / resolution)
  }

  /** Mapping a shown logical coordinate back gives that coordinate, whatever the CSS scale. */
  lemma {:induction false} LogicalOfClient(p: real, start: real, size: real, resolution: real)
    requires size != 0.0 && resolution != 0.0
    ensures ToLogical(ToClient(p, start, size, resolution), start, size, resolution) == Finite(p)
  {
    var ratio := size / resolution;
    assert ratio != 0.0;
    assert (p * ratio) / ratio == p;
  }

  /** And the other way round: every client coordinate is shown where it maps to. */
  lemma {:induction false} ClientOfLogical(client: real, start: real, size: real, resolution: real)
    requires size != 0.0 && resolution != 0.0
    ensures ToClient(ToLogical(client, start, size, resolution).value, start, size, resolution) == client
  {
    var ratio := size / resolution;
    assert ratio != 0.0;
    assert ((client - start) / ratio) * ratio == client - start;
  }

  /** The mapping both the mouse and the touches use (dist/lilypad.js:149-150, 171-172). */
  function MapPoint(p: ClientPoint, rect: Rect, canvasWidth: real, canvasHeight: real): Point
  {
    Point(ToLogical(p.clientX, rect.left, rect.width, canvasWidth),
          ToLogical(p.clientY, rect.top, rect.height, canvasHeight))
  }

  /** The centre of the element maps to the centre of the logical canvas. */
  lemma {:induction false} CentreMapsToMiddle(rect: Rect, canvasWidth: real, canvasHeight: real)
    requires rect.width > 0.0 && rect.height > 0.0
    ensures MapPoint(ClientPoint(rect.left + rect.width / 2.0, rect.top + rect.height / 2.0),
                     rect, canvasWidth, canvasHeight)
         == Point(Finite(canvasWidth / 2.0), Finite(canvasHeight / 2.0))
  {
    HalfOfSize(rect.width, canvasWidth);
    HalfOfSize(rect.height, canvasHeight);
  }

  lemma HalfOfSize(size: real, resolution: real)
    requires size > 0.0
    ensures ToLogical(size / 2.0, 0.0, size, resolution) == Finite(resolution / 2.0)
  {
    if resolution != 0.0 {
      var ratio := size / resolution;
      assert ratio * resolution == size;
      assert (resolution / 2.0) * ratio == size / 2.0;
    }
  }

  /** The touch list of an event, mapped point by point, in the event's order. */
  function MapTouches(points: seq<ClientPoint>, rect: Rect, canvasWidth: real, canvasHeight: real): (r: seq<Point>)
    ensures |r| == |points|
    ensures forall i :: 0 <= i < |points| ==> r[i] == MapPoint(points[i], rect, canvasWidth, canvasHeight)
    decreases |points|
  {
    if points == [] then []
    else [MapPoint(points[0], rect, canvasWidth, canvasHeight)] + MapTouches(points[1..], rect, canvasWidth, canvasHeight)
  }

  /** A key event as the handlers see it: its `code` and whether it went down or up. */
  datatype KeyEvent = Press(code: string) | Release(code: string)

  /** The key dictionary after one event: only the event's own entry changes. */
  function ApplyKey(keys: map<string, bool>, e: KeyEvent): map<string, bool>
  {
    keys[e.code := e.Press?]
  }

  /** The key dictionary after a run of events, oldest first. */
  function Replay(keys: map<string, bool>, events: seq<KeyEvent>): map<string, bool>
    decreases |events|
  {
    if events == [] then keys
    else ApplyKey(Replay(keys, events[..|events| - 1]), events[|events| - 1])
  }

  /** The state the last event for `code` left it in, if any event mentions it. */
  function LastFor(events: seq<KeyEvent>, code: string): (r: Option<bool>)
    decreases |events|
  {
    if events == [] then None
    else if events[|events| - 1].code == code then Some(events[|events| - 1].Press?)
    else LastFor(events[..|events| - 1], code)
  }

  /**
   * No history is kept: after any run of key events a key's entry is what
   * its own last event made it, and a key no event mentions keeps its entry
   * (absent, on a fresh dictionary).
   */
  lemma {:induction false} LastEventWins(keys: map<string, bool>, events: seq<KeyEvent>, code: string)
    ensures LastFor(events, code).Some? ==>
      code in Replay(keys, events) && Replay(keys, events)[code] == LastFor(events, code).value
    ensures LastFor(events, code).None? ==>
      (code in Replay(keys, events) <==> code in keys) &&
      (code in keys ==> Replay(keys, events)[code] == keys[code])
    decreases |events|
  {
    if events != [] {
      LastEventWins(keys, events[..|events| - 1], code);
    }
  }

  class Input {
    /** The canvas resolution the coordinates are mapped to. */
    const canvasWidth: real
    const canvasHeight: real
    var keys: map<string, bool>
    var mouse: Mouse
    var touches: seq<Point>

    constructor(canvasWidth: real, canvasHeight: real)
      ensures this.canvasWidth == canvasWidth && this.canvasHeight == canvasHeight
      ensures keys == map[] && mouse == Mouse(Finite(0.0), Finite(0.0), false) && touches == []
    {
      this.canvasWidth := canvasWidth;
      this.canvasHeight := canvasHeight;
      keys := map[];
      mouse := Mouse(Finite(0.0), Finite(0.0), false);
      touches := [];
    }

    /** `isPressed(code)`: a code never seen is not pressed. */
    function IsPressed(code: string): (r: bool)
      reads this
      ensures code !in keys ==> !r
      ensures code in keys ==> r == keys[code]
    {
      code in keys && keys[code]
    }

    /** keydown: the code is pressed; every other key, the mouse and the touches stay. */
    method OnKeyDown(code: string)
      modifies this
      ensures keys == ApplyKey(old(keys), Press(code))
      ensures IsPressed(code)
      ensures forall c :: c != code ==> IsPressed(c) == old(IsPressed(c))
      ensures mouse == old(mouse) && touches == old(touches)
    {
      keys := keys[code := true];
    }

    /** keyup: the code is released; every other key, the mouse and the touches stay. */
    method OnKeyUp(code: string)
      modifies this
      ensures keys == ApplyKey(old(keys), Release(code))
      ensures !IsPressed(code)
      ensures forall c :: c != code ==> IsPressed(c) == old(IsPressed(c))
      ensures mouse == old(mouse) && touches == old(touches)
    {
      keys := keys[code := false];
    }

    /** mousemove: the position becomes the event's point mapped to logical coordinates. */
    method OnMouseMove(p: ClientPoint, rect: Rect)
      modifies this
      ensures mouse == old(mouse).(x := MapPoint(p, rect, canvasWidth, canvasHeight).x,
                                   y := MapPoint(p, rect, canvasWidth, canvasHeight).y)
      ensures keys == old(keys) && touches == old(touches)
    {
      mouse := mouse.(x := ToLogical(p.clientX, rect.left, rect.width, canvasWidth));
      mouse := mouse.(y := ToLogical(p.clientY, rect.top, rect.height, canvasHeight));
    }

    method OnMouseDown()
      modifies this
      ensures mouse == old(mouse).(down := true)
      ensures keys == old(keys) && touches == old(touches)
    {
      mouse := mouse.(down := true);
    }

    method OnMouseUp()
      modifies this
      ensures mouse == old(mouse).(down := false)
      ensures keys == old(keys) && touches == old(touches)
    {
      mouse := mouse.(down := false);
    }

    /**
     * touchstart, touchmove and touchend: the touches become the event's
     * list mapped point by point; nothing of the earlier list survives.
     */
    method UpdateTouches(points: seq<ClientPoint>, rect: Rect)
      modifies this
      ensures touches == MapTouches(points, rect, canvasWidth, canvasHeight)
      ensures keys == old(keys) && mouse == old(mouse)
    {
      touches := MapTouches(points, rect, canvasWidth, canvasHeight);
    }
  }

  /**
   * Two fingers down, then one lifts: the touchend event lists the one that
   * remains, and so does the input state.
   */
  method TwoTouchesThenOneLift(a: ClientPoint, b: ClientPoint, rect: Rect) returns (after: seq<Point>)
    ensures |after| == 1
    ensures after[0] == MapPoint(b, rect, 160.0, 144.0)
  {
    var input := new Input(160.0, 144.0);
    input.UpdateTouches([a, b], rect);
    input.UpdateTouches([b], rect);
    after := input.touches;
  }
}

=== FILE: sprite.dfy ===
/**
 * A sprite (dist/lilypad.js:114-136): an image with a position, a size,
 * a rotation, two flip flags and an opacity, drawn as a fixed bracketed
 * sequence of context operations.
 */
module Sprites {
  import opened Defaults
  import opened Canvas

  /** The operations `draw` issues, in its order (dist/lilypad.js:128-134). */
  function DrawOps(image: Image, x: real, y: real, w: real, h: real,
                   rotation: real, flipX: bool, flipY: bool, alpha: real): (ops: seq<Op>)
    ensures |ops| == 7 && ops[0] == Save && ops[6] == Restore
    ensures forall k :: 0 < k < 6 ==> !ops[k].Save? && !ops[k].Restore?
  {
    [ Save,
      SetAlpha(alpha),
      Translate(x + w / 2.0, y + h / 2.0),
      Rotate(rotation),
      Scale(if flipX then -1.0 else 1.0, if flipY then -1.0 else 1.0),
      DrawImage(image, -w / 2.0, -h / 2.0, w, h),
      Restore ]
  }

  /** The alpha a context has after `globalAlpha = alpha`. */
  function AlphaAfter(c: Context, alpha: real): real
  {
    if 0.0 <= alpha <= 1.0 then alpha else c.alpha
  }

  /**
   * Where an unrotated sprite drawn on c lands: the corners of its box at
   * (x, y) of size (w, h), swapped on a flipped axis, under c's transform;
   * it shows mirrored on an axis when exactly one of the flip and the
   * transform reverses it.
   */
  function PlacedAt(c: Context, image: Image, x: real, y: real, w: real, h: real,
                    flipX: bool, flipY: bool, alpha: real): Placed
  {
    var t := c.transform;
    Placed(image,
           MapX(t, if flipX then x + w else x), MapY(t, if flipY then y + h else y),
           MapX(t, if flipX then x else x + w), MapY(t, if flipY then y else y + h),
           t.sx * (if flipX then -1.0 else 1.0) < 0.0, t.sy * (if flipY then -1.0 else 1.0) < 0.0,
           AlphaAfter(c, alpha))
  }

  /** Corner arithmetic of one axis: centre, mirror by k = +-1, then offset by -w/2 and w/2. */
  lemma {:induction false} AxisCorners(s: real, t: real, x: real, w: real, flip: bool)
    ensures var k := if flip then -1.0 else 1.0;
      && (s * k) * (-w / 2.0) + (s * (x + w / 2.0) + t) == s * (if flip then x + w else x) + t
      && (s * k) * (-w / 2.0 + w) + (s * (x + w / 2.0) + t) == s * (if flip then x else x + w) + t
  {
    if flip {
      assert (s * -1.0) * (-w / 2.0) == s * (w / 2.0);
      assert (s * -1.0) * (-w / 2.0 + w) == -(s * (w / 2.0));
      assert s * (x + w / 2.0) == s * x + s * (w / 2.0);
      assert s * (x + w) == s * x + s * (w / 2.0) + s * (w / 2.0);
    } else {
      assert (s * 1.0) * (-w / 2.0) == -(s * (w / 2.0));
      assert (s * 1.0) * (-w / 2.0 + w) == s * (w / 2.0);
      assert s * (x + w / 2.0) == s * x + s * (w / 2.0);
      assert s * (x + w) == s * x + s * (w / 2.0) + s * (w / 2.0);
    }
  }

  /** The horizontal corners of the image in the frame the draw sets up. */
  lemma CornersX(t: Transform, x: real, y: real, w: real, h: real, flip: bool, ky: real)
    ensures var t5 := Stretch(Shift(t, x + w / 2.0, y + h / 2.0), if flip then -1.0 else 1.0, ky);
      && MapX(t5, -w / 2.0) == MapX(t, if flip then x + w else x)
      && MapX(t5, -w / 2.0 + w) == MapX(t, if flip then x else x + w)
  {
    AxisCorners(t.sx, t.tx, x, w, flip);
  }

  /** The vertical corners of the image in the frame the draw sets up. */
  lemma CornersY(t: Transform, x: real, y: real, w: real, h: real, kx: real, flip: bool)
    ensures var t5 := Stretch(Shift(t, x + w / 2.0, y + h / 2.0), kx, if flip then -1.0 else 1.0);
      && MapY(t5, -h / 2.0) == MapY(t, if flip then y + h else y)
      && MapY(t5, -h / 2.0 + h) == MapY(t, if flip then y else y + h)
  {
    AxisCorners(t.sy, t.ty, y, h, flip);
  }

  /**
   * With rotation 0 a sprite's draw places exactly one image, its box at
   * (x, y) of size (w, h) under the context's transform, mirrored on each
   * flipped axis, and leaves the context's transform, alpha and stack as it
   * found them.
   */
  lemma {:induction false} Placement(c: Context, image: Image, x: real, y: real, w: real, h: real,
                                     flipX: bool, flipY: bool, alpha: real)
    ensures Run(c, DrawOps(image, x, y, w, h, 0.0, flipX, flipY, alpha))
         == Some(c.(placed := c.placed + [PlacedAt(c, image, x, y, w, h, flipX, flipY, alpha)]))
  {
    var t := c.transform;
    var kx := if flipX then -1.0 else 1.0;
    var ky := if flipY then -1.0 else 1.0;
    var t3 := Shift(t, x + w / 2.0, y + h / 2.0);
    var c3 := Context(t3, AlphaAfter(c, alpha), c.stack + [Saved(t, c.alpha)], c.placed);
    var tail := [Rotate(0.0), Scale(kx, ky), DrawImage(image, -w / 2.0, -h / 2.0, w, h), Restore];
    assert DrawOps(image, x, y, w, h, 0.0, flipX, flipY, alpha)
        == [Save, SetAlpha(alpha), Translate(x + w / 2.0, y + h / 2.0)] + tail;
    DrawOpsHead(c, x, y, w, h, alpha, tail);
    DrawOpsTail(c3, c, image, w, h, kx, ky);
    CornersX(t, x, y, w, h, flipX, ky);
    CornersY(t, x, y, w, h, kx, flipY);
    assert Drawn(Stretch(t3, kx, ky), image, w, h, c3.alpha) == PlacedAt(c, image, x, y, w, h, flipX, flipY, alpha);
  }

  /** The image drawn in the frame t5 of the last four operations, with the alpha in force. */
  function Drawn(t5: Transform, image: Image, w: real, h: real, a: real): Placed
  {
    Placed(image, MapX(t5, -w / 2.0), MapY(t5, -h / 2.0), MapX(t5, -w / 2.0 + w), MapY(t5, -h / 2.0 + h),
           t5.sx < 0.0, t5.sy < 0.0, a)
  }

  /** The first three operations: save, set the alpha, move to the centre. */
  lemma DrawOpsHead(c: Context, x: real, y: real, w: real, h: real, alpha: real, rest: seq<Op>)
    ensures Run(c, [Save, SetAlpha(alpha), Translate(x + w / 2.0, y + h / 2.0)] + rest)
         == Run(Context(Shift(c.transform, x + w / 2.0, y + h / 2.0), AlphaAfter(c, alpha),
                        c.stack + [Saved(c.transform, c.alpha)], c.placed), rest)
  {
    var t := c.transform;
    var c1 := c.(stack := c.stack + [Saved(t, c.alpha)]);
    var c2 := c1.(alpha := AlphaAfter(c, alpha));
    var c3 := c2.(transform := Shift(t, x + w / 2.0, y + h / 2.0));
    var o1 := SetAlpha(alpha);
    var o2 := Translate(x + w / 2.0, y + h / 2.0);
    assert [Save, o1, o2] + rest == [Save] + ([o1] + ([o2] + rest));
    RunCons(c2, o2, rest, c3);
    RunCons(c1, o1, [o2] + rest, c2);
    RunCons(c, Save, [o1] + ([o2] + rest), c1);
  }

  /** The last four operations, from inside the save: no rotation, the flip, the image, the restore. */
  lemma DrawOpsTail(c3: Context, c: Context, image: Image, w: real, h: real, kx: real, ky: real)
    requires c3.stack == c.stack + [Saved(c.transform, c.alpha)]
    ensures Run(c3, [Rotate(0.0), Scale(kx, ky), DrawImage(image, -w / 2.0, -h / 2.0, w, h), Restore])
         == Some(c.(placed := c3.placed + [Drawn(Stretch(c3.transform, kx, ky), image, w, h, c3.alpha)]))
  {
    var t5 := Stretch(c3.transform, kx, ky);
    var c5 := c3.(transform := t5);
    var c6 := c5.(placed := c3.placed + [Drawn(t5, image, w, h, c3.alpha)]);
    var o4 := Scale(kx, ky);
    var o5 := DrawImage(image, -w / 2.0, -h / 2.0, w, h);
    assert [Rotate(0.0), o4, o5, Restore] == [Rotate(0.0)] + ([o4] + ([o5] + [Restore]));
    RunOne(c6, Restore);
    assert c6.stack[..|c6.stack| - 1] == c.stack;
    RunCons(c5, o5, [Restore], c6);
    RunCons(c3, o4, [o5] + [Restore], c5);
    RunCons(c3, Rotate(0.0), [o4] + ([o5] + [Restore]), c3);
  }

  /**
   * An unrotated, unflipped sprite drawn on a fresh context covers the box
   * with corners (x, y) and (x + w, y + h), unmirrored, at its own alpha;
   * for a negative w or h the box lies left of x or above y.
   */
  lemma {:induction false} UnflippedBox(image: Image, x: real, y: real, w: real, h: real, alpha: real)
    requires 0.0 <= alpha <= 1.0
    ensures Run(Fresh, DrawOps(image, x, y, w, h, 0.0, false, false, alpha))
         == Some(Fresh.(placed := [Placed(image, x, y, x + w, y + h, false, false, alpha)]))
  {
    Placement(Fresh, image, x, y, w, h, false, false, alpha);
    var q := PlacedAt(Fresh, image, x, y, w, h, false, false, alpha);
    assert q == Placed(image, x, y, x + w, y + h, false, false, alpha);
    assert Fresh.placed + [q] == [q];
  }

  /**
   * A negative width is not a flip: a flipped sprite of width w at x and an
   * unflipped one of width -w at x + w cover the same box, but only the
   * first shows mirrored.
   */
  lemma {:induction false} NegativeWidthIsNotAFlip(image: Image, x: real, y: real, w: real, h: real, alpha: real)
    requires w > 0.0
    ensures var flipped := Run(Fresh, DrawOps(image, x, y, w, h, 0.0, true, false, alpha));
      var negative := Run(Fresh, DrawOps(image, x + w, y, -w, h, 0.0, false, false, alpha));
      && flipped.Some? && negative.Some?
      && |flipped.value.placed| == 1 && |negative.value.placed| == 1
      && flipped.value.placed[0].(mirrorX := false) == negative.value.placed[0]
      && flipped.value.placed[0].mirrorX
  {
    Placement(Fresh, image, x, y, w, h, true, false, alpha);
    Placement(Fresh, image, x + w, y, -w, h, false, false, alpha);
    var p := PlacedAt(Fresh, image, x, y, w, h, true, false, alpha);
    var q := PlacedAt(Fresh, image, x + w, y, -w, h, false, false, alpha);
    assert Fresh.placed + [p] == [p];
    assert Fresh.placed + [q] == [q];
    assert p.(mirrorX := false) == q;
  }

  class Sprite {
    var image: Image
    var x: real
    var y: real
    var width: real
    var height: real
    var flipX: bool
    var flipY: bool
    var rotation: real
    var alpha: real

    /**
     * `new Sprite(image, x, y, width, height)`: a left-out position is 0; a
     * left-out or zero size is the image's natural size.
     */
    constructor(image: Image, x: Option<real>, y: Option<real>, width: Option<real>, height: Option<real>)
      ensures this.image == image
      ensures this.x == ParamOr(x, 0.0) && this.y == ParamOr(y, 0.0)
      ensures this.width == OrDefault(width, image.width) && this.height == OrDefault(height, image.height)
      ensures !flipX && !flipY && rotation == 0.0 && alpha == 1.0
    {
      this.image := image;
      this.x := ParamOr(x, 0.0);
      this.y := ParamOr(y, 0.0);
      this.width := OrDefault(width, image.width);
      this.height := OrDefault(height, image.height);
      flipX := false;
      flipY := false;
      rotation := 0.0;
      alpha := 1.0;
    }

    /**
     * `draw(ctx)`: the operations issued on the context. They open with a
     * save and close with its restore, and with rotation 0 they place the
     * image's box at (x, y) with size (width, height).
     */
    method Draw() returns (ops: seq<Op>)
      ensures ops == DrawOps(image, x, y, width, height, rotation, flipX, flipY, alpha)
      ensures ops[0] == Save && ops[|ops| - 1] == Restore
      ensures rotation == 0.0 ==>
        Run(Fresh, ops) == Some(Fresh.(placed := [PlacedAt(Fresh, image, x, y, width, height, flipX, flipY, alpha)]))
    {
      ops := [Save];
      ops := ops + [SetAlpha(alpha)];
      ops := ops + [Translate(x + width / 2.0, y + height / 2.0)];
      ops := ops + [Rotate(rotation)];
      ops := ops + [Scale(if flipX then -1.0 else 1.0, if flipY then -1.0 else 1.0)];
      ops := ops + [DrawImage(image, -width / 2.0, -height / 2.0, width, height)];
      ops := ops + [Restore];
      assert ops == DrawOps(image, x, y, width, height, rotation, flipX, flipY, alpha);
      if rotation == 0.0 {
        Placement(Fresh, image, x, y, width, height, flipX, flipY, alpha);
        var q := PlacedAt(Fresh, image, x, y, width, height, flipX, flipY, alpha);
        assert Fresh.placed + [q] == [q];
      }
    }
  }

  /**
   * `new Sprite(image, 0, 0, 0, 0)`: the explicit zero position is kept,
   * while the explicit zero size is replaced by the image's own size.
   */
  method ZeroSizedSprite(image: Image) returns (x: real, y: real, width: real, height: real)
    ensures x == 0.0 && y == 0.0
    ensures width == image.width && height == image.height
  {
    var s := new Sprite(image, Some(0.0), Some(0.0), Some(0.0), Some(0.0));
    x, y, width, height := s.x, s.y, s.width, s.height;
  }
}
